=== FILE: README.md ===
# Bar series: a verified model

This project models the bar series of a Rust charting library
(`src/series/bar_series.rs`). A bar series turns category data into
rectangles for a bar chart or a stacked histogram. Each category carries a
list of `(identity, amount)` items.

1. The builder aggregates the input. All lists that share a category are
   merged in encounter order. The resulting map is then drained in an
   unspecified order.
2. The series is a pull-style iterator. Each call of `next` returns one
   rectangle, or `None`.
   - Vertical `next` stacks a category's items one segment per call. An
     empty category gives a transparent placeholder.
   - Horizontal `next` gives one bar per category, built from the first item
     only. An empty category makes that call return `None`, but later calls
     resume with the next category.

## Modules

- `Element`: shape styles, margins, rectangles and the `u32` margin width.
- `Discrete`: the category domain's `next` and `prev` step functions.
- `SeriesState`:
  - `Config` holds the fields `next` only reads: style function, baseline
    function, margin and domain.
  - `Cursor` holds the fields `next` advances: `iter`, `subiter` and
    `subiterInfo`.
  - A generic account of pulling a one-step function `n` times (`Pulls`).
- `Aggregation`: the merging loop of `data`/`new` and the drain of the map.
- `VerticalBars` and `HorizontalBars`:
  - each `next` as a pure step function `Step`;
  - a closed-form reference for the whole output (`Expected`; `Emitted` and
    `Shown`);
  - lemmas that connect the step function to that reference.
- `BarSeries`: the series as a class.
  - Its fields are the Rust struct's fields.
  - The builder setters update one field each.
  - `NextVertical` and `NextHorizontal` are imperative transcriptions of the
    two `next` bodies. Each is proved to perform exactly one `Step` of its
    module.

Amounts are unbounded integers. A category's stack top is the running sum
of its amounts.

### Behaviour of the code worth knowing

- **The baseline is not added to a stack.** With a nonzero baseline `b`,
  the first segment of a category spans from `b` to the raw first amount
  `a1`, and the running top stored for the rest of the stack is the raw
  `a1` (`bar_series.rs:216-224`).
  - Later segments therefore span `(a1, a1+a2), …`, and the last top is
    `a1+…+an`.
  - With the default zero baseline the segments tile `[0, a1+…+an]`
    (`ZeroBaselineStacks`).
  - `FirstSegment`, `Segment` and `StackedTops` state this behaviour.
- **Horizontal `None` is not final.** In the horizontal `next`
  (`bar_series.rs:262-276`), an empty category returns `None` while later
  categories remain, and the next call continues (`ResumesAfterEmpty`). A
  consumer that stops at the first `None` sees only `Shown`.
- **`subiter` is never reset.** When a stack is used up, only
  `subiterInfo` is cleared. `subiter` stays `Some` of an exhausted list
  until the next stack replaces it. `data` does not reset either stack
  field.
- **The public `horizontal()` builds a vertical series.** The impl block at
  `bar_series.rs:157` is `BarSeries<'a, BR, A, Horizontal>`, which puts
  `Horizontal` in the `DataId` slot and leaves the tag at its default
  `Vertical` (`bar_series.rs:23`). So the series `horizontal()` returns
  (`bar_series.rs:163-171`) runs the vertical `next` (`bar_series.rs:174-240`).
  The horizontal `next` (`bar_series.rs:244-278`) is only reachable through
  the module-private `empty()` (`bar_series.rs:48`).

## Model

| member | source | states |
|---|---|---|
| Aggregation.ItemsForSnoc | src/series/bar_series.rs:99-102 | one more input pair extends only its own category's list, appending its items at the end |
| Aggregation.ItemsForAbsent | src/series/bar_series.rs:100 | a category never seen has the empty list that `or_insert(Vec::new())` would create |
| Aggregation.ItemsForAppend | src/series/bar_series.rs:129-133 | for any split of the input, each category's merged list is the first part's list followed by the second part's: same-category lists are concatenated in encounter order whatever entries lie between |
| Aggregation.MergedSnoc | src/series/bar_series.rs:130-133 | one loop iteration (look up or create, then extend) keeps the map equal to the aggregation of the input read so far |
| Aggregation.Aggregate | src/series/bar_series.rs:98-102 | the map's keys are exactly the input's distinct categories; each value is the encounter-order concatenation of that category's input lists; empty input gives the empty map |
| Aggregation.Drain | src/series/bar_series.rs:104 | draining the map lists every key exactly once, with its value, in an order left open |
| Aggregation.Ingest | src/series/bar_series.rs:97-106 | the iterator `data` installs holds each distinct input category once, with its merged list; no input gives no categories |
| VerticalBars.Step | src/series/bar_series.rs:182-240 | one call of the vertical `next` as a function of settings and state; its behaviour is stated by `StackingStep`, `AdvanceStep`, `StepCounts` and `StepEmitsHead` |
| VerticalBars.LaterSegment | src/series/bar_series.rs:185-190 | the rectangle of a stacked item on the running top; stated by `StackingStep` and `ContinuationCons` |
| VerticalBars.FirstSegment | src/series/bar_series.rs:216-220 | the rectangle of a category's first item, from the baseline to the raw amount; stated by `AdvanceStep`, `CategorySplit` and `FirstSegmentFromBaseline` |
| VerticalBars.Placeholder | src/series/bar_series.rs:228-234 | the transparent, margin-free rectangle of an empty category; stated by `CategoryStyle` and `FirstSegmentFromBaseline` |
| VerticalBars.StackingStep | src/series/bar_series.rs:183-195 | a call with a stack in progress emits a segment from the stored top `base` to `base + amount`; its style is taken on the raw amount; margins are (0, 0, m, m); it stores the new top and the remaining items |
| VerticalBars.AdvanceStep | src/series/bar_series.rs:208-236 | a call with no stack pending drains the next category and emits its first rectangle; a stack is left pending exactly when the category has more than one item, with the raw first amount as its top; otherwise `subiter` keeps its old value |
| VerticalBars.StepCounts | src/series/bar_series.rs:182-240 | every call keeps "running top implies stack" true; a call returns `None` exactly when no rectangle is left; otherwise exactly one fewer is left |
| VerticalBars.ContinuationCons | src/series/bar_series.rs:183-195 | a pending stack emits its head segment and leaves the rest stacked on the new top |
| VerticalBars.CategorySplit | src/series/bar_series.rs:213-225 | a non-empty category's output is its first segment followed by the remaining items stacked on the raw first amount |
| VerticalBars.StackingOutput | src/series/bar_series.rs:183-206 | a call on a stack in progress returns the head of what the stack owes, leaves the rest owed and drains no category |
| VerticalBars.AdvanceOutput | src/series/bar_series.rs:208-237 | a call that drains a category returns the head of that category's closed-form output and leaves the rest of it pending |
| VerticalBars.StackingEmitsHead | src/series/bar_series.rs:183-206 | with a stack pending, a call returns the first rectangle still owed and leaves exactly the rest owed |
| VerticalBars.DrainingEmitsHead | src/series/bar_series.rs:208-237 | with no stack pending, a call returns the first rectangle still owed and leaves exactly the rest owed |
| VerticalBars.StepEmitsHead | src/series/bar_series.rs:182-240 | every call returns the head of the closed-form output still owed and leaves its tail; with nothing owed it returns `None` |
| VerticalBars.AllStepsEmitHead | src/series/bar_series.rs:182-240 | the head-emitting property holds in every state |
| VerticalBars.ExpectedLength | src/series/bar_series.rs:212-236 | the closed-form output has one rectangle per item of each category, and one placeholder per empty category |
| VerticalBars.RunFollowsOutput | src/series/bar_series.rs:182-240 | from any state, `n` calls return the first `n` rectangles still owed, in order, and leave the rest owed |
| VerticalBars.RunAll | src/series/bar_series.rs:182-240 | pulling until none are left yields the pending segments, then each drained category's output in drain order; the state is then exhausted and every later call returns `None` |
| VerticalBars.OneCategory | src/series/bar_series.rs:208-236 | with no stack pending, the next `Width` calls return exactly the first category's output, and then only the later categories are owed |
| VerticalBars.FreshSeries | src/series/bar_series.rs:135-143 | a series built with no stack pending yields exactly the closed-form output of its categories, then `None` forever |
| VerticalBars.FirstSegmentFromBaseline | src/series/bar_series.rs:215-233 | when `prev(next(x)) == x`, the first segment starts at the baseline of `x` and the placeholder is the transparent, margin-free rectangle at `(x, 0)` |
| VerticalBars.StackedTops | src/series/bar_series.rs:183-225 | each segment's top is a prefix sum of the raw amounts; each later segment starts where the previous one ended; the last top is the category's total |
| VerticalBars.ZeroBaselineStacks | src/series/bar_series.rs:141 | with the default zero baseline, segment `i` spans from the sum of the first `i` amounts to the sum of the first `i + 1` |
| VerticalBars.CategoryStyle | src/series/bar_series.rs:213-235 | an empty category yields exactly the placeholder, styled transparent with no margins; each segment of a non-empty category is styled from its own item with margins (0, 0, m, m) |
| VerticalBars.ExpectedMargins | src/series/bar_series.rs:182-240 | across the whole output, every rectangle has margins (0, 0, m, m) unless it is the placeholder of an empty category, and every empty category contributes its placeholder |
| HorizontalBars.Step | src/series/bar_series.rs:262-277 | one call of the horizontal `next` as a function of settings and state; its behaviour is stated by `StepDrainsOne`, `RunEmits` and `ResumesAfterEmpty` |
| HorizontalBars.Bar | src/series/bar_series.rs:264-270 | the bar of a category's first item; stated by `BarShape` |
| HorizontalBars.StepDrainsOne | src/series/bar_series.rs:262-277 | a call drains exactly one category if there is one and never touches the stack fields; it returns a bar exactly when that category has items; with none left it returns `None` and changes nothing |
| HorizontalBars.RunEmits | src/series/bar_series.rs:262-275 | one call per category returns each category's result in drain order and drains everything |
| HorizontalBars.RunAfterEnd | src/series/bar_series.rs:276 | once all categories are drained, every call returns `None` and leaves the state unchanged |
| HorizontalBars.EmittedShown | src/series/bar_series.rs:263-274 | the per-call results begin with the bars of the non-empty front run of categories, followed by `None` at the first empty category, if there is one |
| HorizontalBars.ResumesAfterEmpty | src/series/bar_series.rs:262-275 | an empty category returns `None`, and the next call still returns the following category's bar |
| HorizontalBars.OnlyFirstItem | src/series/bar_series.rs:267-269 | a category's items after the first have no influence on the result |
| HorizontalBars.BarShape | src/series/bar_series.rs:264-270 | a bar spans from its amount to the baseline and from `y` to `next(y)`; its style is taken on the first item; margins are (m, m, 0, 0); when `prev(next(y)) == y`, the baseline is the one of `y` |
| BarSeries.BarSeries.Empty | src/series/bar_series.rs:48-58 | the default series has margin 5, a green fill for every bar, baseline 0, no categories and no stack |
| BarSeries.BarSeries.New | src/series/bar_series.rs:124-144 | a vertical series with a constant style, the given margin and baseline 0, whose categories are the aggregation of the input |
| BarSeries.BarSeries.SetStyle | src/series/bar_series.rs:60-64 | every bar gets the given style; nothing else changes |
| BarSeries.BarSeries.SetStyleFunc | src/series/bar_series.rs:67-73 | the style function is replaced; nothing else changes |
| BarSeries.BarSeries.SetBaseline | src/series/bar_series.rs:76-82 | every category's baseline becomes the given amount; nothing else changes |
| BarSeries.BarSeries.SetBaselineFunc | src/series/bar_series.rs:85-88 | the baseline function is replaced; nothing else changes |
| BarSeries.BarSeries.SetMargin | src/series/bar_series.rs:91-94 | the margin is replaced; nothing else changes |
| BarSeries.BarSeries.SetData | src/series/bar_series.rs:97-106 | the categories become the aggregation of the input; the settings and both stack fields are unchanged |
| BarSeries.BarSeries.NextVertical | src/series/bar_series.rs:182-240 | the in-place `next` returns what `VerticalBars.Step` returns and leaves the state it leaves; the settings are unchanged |
| BarSeries.BarSeries.NextHorizontal | src/series/bar_series.rs:252-277 | the in-place `next` returns what `HorizontalBars.Step` returns and leaves the state it leaves; the settings are unchanged |

## Left out

- Debug output: the `println!` calls at `bar_series.rs:103` and `:209` are
  not modelled.
- The `vertical` and `horizontal` constructors (`bar_series.rs:146-171`)
  take a chart context only to fix type parameters, then call `empty()`.
  - `vertical()` is `BarSeries.Empty(Vertical, _)`.
  - `horizontal()` returns a Vertical-tagged series (see above), which is
    also `BarSeries.Empty(Vertical, _)`; its `DataId` of `Horizontal` is a
    type parameter the model does not track.
  - `BarSeries.Empty(Horizontal, _)` stands for a horizontal series that
    the public API cannot build. It is kept so that the horizontal `next`
    is modelled.
- The orientation is a compile-time type tag. It is modelled as a constant
  field, checked by a precondition of each `next`.
- Hash map iteration order is not modelled. `Drain` may pick the keys in
  any order, and every lemma holds for every order.
- Amounts are generic in the source (`AddAssign + Default`, integer or
  floating point). They are modelled as unbounded integers with `+` and
  default `0`, so overflow and rounding are not modelled.
- Styles and colours are not modelled. `ShapeStyle` is opaque apart from
  the two styles the series itself creates: the green fill, and the
  transparent fill from `TRANSPARENT.mix(0.0)`.
- Rectangle rendering, `set_margin` internals and the drawing backend are
  not part of this model.
- The domain's `next_value` and `previous_value` are modelled as arbitrary
  total functions. The source's behaviour at the ends of a bounded domain
  is not modelled. `prev(next(x)) == x` is a hypothesis of the lemmas that
  need it.
- The commented-out horizontal body at `bar_series.rs:253-261` is dead code
  and is not modelled.
- `src/series/mod.rs` only re-exports the series types, so it is not part of
  this model.
- The builder methods take and return the series by value in the source.
  They are modelled as in-place updates of one object, which is
  observationally the same because the series is never aliased.

=== FILE: aggregation.dfy ===
/** The category aggregator behind `data` and `new`: the input pairs of a
    category with a list of stacked items are merged into a map keyed by
    category, and the map is then drained into the series' iterator. */
module Aggregation {
  import opened SeriesState

  /** The distinct categories that occur in the input. */
  ghost function Categories<K, Id>(input: seq<Entry<K, Id>>): set<K>
  {
    set i | 0 <= i < |input| :: input[i].0
  }

  /** Reference definition of a category's merged list: the item lists of
      every input entry with that category, concatenated in encounter order. */
  function ItemsFor<K(==), Id>(input: seq<Entry<K, Id>>, k: K): seq<Item<Id>>
  {
    if input == [] then []
    else (if input[0].0 == k then input[0].1 else []) + ItemsFor(input[1..], k)
  }

  /** Appending one more input entry extends exactly the list of its own
      category, at the end. */
  lemma {:induction false} ItemsForSnoc<K, Id>(input: seq<Entry<K, Id>>, e: Entry<K, Id>, k: K)
    ensures ItemsFor(input + [e], k) == ItemsFor(input, k) + (if e.0 == k then e.1 else [])
  {
    if input == [] {
      assert [e][1..] == [];
    } else {
      assert (input + [e])[1..] == input[1..] + [e];
      ItemsForSnoc(input[1..], e, k);
    }
  }

  /** A category that does not occur in the input has no items. */
  lemma {:induction false} ItemsForAbsent<K, Id>(input: seq<Entry<K, Id>>, k: K)
    requires k !in Categories(input)
    ensures ItemsFor(input, k) == []
  {
    if input != [] {
      assert Categories(input[1..]) <= Categories(input) by {
        forall c | c in Categories(input[1..]) ensures c in Categories(input) {
          var i :| 0 <= i < |input[1..]| && input[1..][i].0 == c;
          assert input[i + 1].0 == c;
        }
      }
      assert input[0].0 in Categories(input);
      ItemsForAbsent(input[1..], k);
    }
  }

  /** Aggregating two inputs one after the other gives, for every category,
      the first input's list followed by the second's: lists of one category
      are merged in encounter order whatever other entries lie between. */
  lemma {:induction false} ItemsForAppend<K, Id>(a: seq<Entry<K, Id>>, b: seq<Entry<K, Id>>, k: K)
    ensures ItemsFor(a + b, k) == ItemsFor(a, k) + ItemsFor(b, k)
  {
    if a == [] {
      assert a + b == b;
    } else {
      assert (a + b)[1..] == a[1..] + b;
      ItemsForAppend(a[1..], b, k);
    }
  }

  /** `buffer` is the aggregation of `input`: one key per distinct category,
      each holding that category's merged list. */
  ghost predicate Merged<K, Id>(buffer: map<K, seq<Item<Id>>>, input: seq<Entry<K, Id>>)
  {
    && buffer.Keys == Categories(input)
    && (forall k :: k in buffer ==> buffer[k] == ItemsFor(input, k))
  }

  /** One iteration of the aggregation loop: looking up (or creating) the
      entry's category and extending it keeps the buffer the aggregation of
      the input read so far. */
  lemma MergedSnoc<K, Id>(buffer: map<K, seq<Item<Id>>>, input: seq<Entry<K, Id>>, e: Entry<K, Id>)
    requires Merged(buffer, input)
    ensures Merged(buffer[e.0 := (if e.0 in buffer then buffer[e.0] else []) + e.1], input + [e])
  {
    forall k ensures ItemsFor(input + [e], k) == ItemsFor(input, k) + (if e.0 == k then e.1 else []) {
      ItemsForSnoc(input, e, k);
    }
    if e.0 !in buffer {
      ItemsForAbsent(input, e.0);
    }
    assert Categories(input + [e]) == Categories(input) + {e.0} by {
      assert forall i :: 0 <= i < |input| ==> (input + [e])[i] == input[i];
      assert (input + [e])[|input|] == e;
    }
  }

  /** The `for` loop of `data` and `new`: look up or create the list of each
      input category and extend it with that entry's items. The result has
      one key per distinct input category, and each key's list is the
      encounter-order concatenation of its input lists. */
  method Aggregate<K(==), Id>(input: seq<Entry<K, Id>>) returns (buffer: map<K, seq<Item<Id>>>)
    ensures buffer.Keys == Categories(input)
    ensures forall k :: k in buffer ==> buffer[k] == ItemsFor(input, k)
    ensures input == [] ==> buffer == map[]
  {
    buffer := map[];
    var i := 0;
    while i < |input|
      invariant 0 <= i <= |input|
      invariant Merged(buffer, input[..i])
    {
      var x, y := input[i].0, input[i].1;
      var entry := if x in buffer then buffer[x] else [];
      MergedSnoc(buffer, input[..i], input[i]);
      assert input[..i + 1] == input[..i] + [input[i]];
      buffer := buffer[x := entry + y];
      i := i + 1;
    }
    assert input[..i] == input;
  }

  /** `entries` lists every key of `m` exactly once, each with its value,
      in no particular order. */
  ghost predicate Enumerates<K, V>(entries: seq<(K, V)>, m: map<K, V>)
  {
    && (forall i :: 0 <= i < |entries| ==> entries[i].0 in m && m[entries[i].0] == entries[i].1)
    && (forall i, j :: 0 <= i < j < |entries| ==> entries[i].0 != entries[j].0)
    && (forall k :: k in m ==> exists i :: 0 <= i < |entries| && entries[i].0 == k)
  }

  /** Draining the map into an iterator: the keys come out one at a time in
      an order the model leaves open (each step picks any remaining key). */
  method Drain<K(==), V>(m: map<K, V>) returns (entries: seq<(K, V)>)
    ensures Enumerates(entries, m)
    ensures |entries| == |m|
  {
    entries := [];
    var todo := m.Keys;
    while todo != {}
      invariant todo <= m.Keys
      invariant |entries| + |todo| == |m|
      invariant forall i :: 0 <= i < |entries| ==> entries[i].0 in m && entries[i].0 !in todo && m[entries[i].0] == entries[i].1
      invariant forall i, j :: 0 <= i < j < |entries| ==> entries[i].0 != entries[j].0
      invariant forall k :: k in m && k !in todo ==> exists i :: 0 <= i < |entries| && entries[i].0 == k
      decreases todo
    {
      var k :| k in todo;
      ghost var before := entries;
      entries := entries + [(k, m[k])];
      todo := todo - {k};
      forall k' | k' in m && k' !in todo ensures exists i :: 0 <= i < |entries| && entries[i].0 == k' {
        if k' == k {
          assert entries[|before|].0 == k';
        } else {
          var i :| 0 <= i < |before| && before[i].0 == k';
          assert entries[i].0 == k';
        }
      }
    }
  }

  /** `entries` is a drain of the aggregation of `input`: each distinct
      input category exactly once, with its merged list. */
  ghost predicate Aggregates<K, Id>(entries: seq<Entry<K, Id>>, input: seq<Entry<K, Id>>)
  {
    && (forall i :: 0 <= i < |entries| ==> entries[i].0 in Categories(input) && entries[i].1 == ItemsFor(input, entries[i].0))
    && (forall i, j :: 0 <= i < j < |entries| ==> entries[i].0 != entries[j].0)
    && (forall k :: k in Categories(input) ==> exists i :: 0 <= i < |entries| && entries[i].0 == k)
  }

  /** The body shared by `data` and `new`: aggregate, then drain. */
  method Ingest<K(==), Id>(input: seq<Entry<K, Id>>) returns (entries: seq<Entry<K, Id>>)
    ensures Aggregates(entries, input)
    ensures |entries| == |Categories(input)|
    ensures input == [] ==> entries == []
  {
    var buffer := Aggregate(input);
    entries := Drain(buffer);
  }
}

=== FILE: bar_series.dfy ===
/** The bar series object: a builder whose setters replace one field each,
    and an iterator whose `next` updates the iteration fields in place. The
    orientation is fixed when the series is created; the vertical and the
    horizontal `next` are each proved to perform exactly one call of the
    corresponding value-level model. */
module BarSeries {
  import opened Element
  import opened Discrete
  import opened SeriesState
  import Aggregation
  import VerticalBars
  import HorizontalBars

  class BarSeries<K(==), Id> {
    /** Which `next` the series has (a type parameter of the Rust struct). */
    const orientation: Orientation
    /** The category domain's successor and predecessor. */
    const domain: Discrete<K>
    var style: (K, Id, int) -> ShapeStyle
    var margin: u32
    /** Categories not yet drained from the aggregated map. */
    var iter: seq<Entry<K, Id>>
    /** Remaining items of the stack in progress. */
    var subiter: Option<seq<Item<Id>>>
    /** Category and running top of the stack in progress. */
    var subiterInfo: Option<(K, int)>
    var baseline: K -> int

    /** The fields `next` only reads. */
    function Settings(): Config<K, Id>
      reads this
    {
      Config(domain, style, baseline, margin)
    }

    /** The fields `next` advances. */
    function State(): Cursor<K, Id>
      reads this
    {
      Cursor(iter, subiter, subiterInfo)
    }

    /** The default series: margin 5, every bar filled green, baseline 0,
        nothing to draw and no stack in progress. */
    constructor Empty(orientation: Orientation, domain: Discrete<K>)
      ensures this.orientation == orientation && this.domain == domain
      ensures margin == 5
      ensures forall k, i, a :: style(k, i, a) == GreenFilled
      ensures forall k :: baseline(k) == 0
      ensures iter == [] && subiter == None && subiterInfo == None
    {
      this.orientation := orientation;
      this.domain := domain;
      style := (k, i, a) => GreenFilled;
      margin := 5;
      iter := [];
      subiter := None;
      subiterInfo := None;
      baseline := k => 0;
    }

    /** A vertical series over `input`, with a fixed style, the given margin
        and baseline 0; its categories are the aggregation of `input`. */
    constructor New(domain: Discrete<K>, input: seq<Entry<K, Id>>, margin: u32, s: ShapeStyle)
      ensures orientation == Vertical && this.domain == domain
      ensures this.margin == margin
      ensures forall k, i, a :: style(k, i, a) == s
      ensures forall k :: baseline(k) == 0
      ensures Aggregation.Aggregates(iter, input) && |iter| == |Aggregation.Categories(input)|
      ensures subiter == None && subiterInfo == None
    {
      var entries := Aggregation.Ingest(input);
      orientation := Vertical;
      this.domain := domain;
      iter := entries;
      style := (k, i, a) => s;
      this.margin := margin;
      subiter := None;
      subiterInfo := None;
      baseline := k => 0;
    }

    // ----- Builder setters: each replaces one field -----

    /** Every bar gets the fixed style `s`. */
    method SetStyle(s: ShapeStyle)
      modifies this
      ensures forall k, i, a :: style(k, i, a) == s
      ensures margin == old(margin) && baseline == old(baseline) && State() == old(State())
    {
      style := (k, i, a) => s;
    }

    /** Bars are styled by `f` of category, identity and raw amount. */
    method SetStyleFunc(f: (K, Id, int) -> ShapeStyle)
      modifies this
      ensures style == f
      ensures margin == old(margin) && baseline == old(baseline) && State() == old(State())
    {
      style := f;
    }

    /** Every category's stack starts from the fixed amount `b`. */
    method SetBaseline(b: int)
      modifies this
      ensures forall k :: baseline(k) == b
      ensures style == old(style) && margin == old(margin) && State() == old(State())
    {
      baseline := k => b;
    }

    /** A category's stack starts from `f` of the category. */
    method SetBaselineFunc(f: K -> int)
      modifies this
      ensures baseline == f
      ensures style == old(style) && margin == old(margin) && State() == old(State())
    {
      baseline := f;
    }

    method SetMargin(value: u32)
      modifies this
      ensures margin == value
      ensures style == old(style) && baseline == old(baseline) && State() == old(State())
    {
      margin := value;
    }

    /** Replaces the categories by the aggregation of `input`. The stack
        fields are left as they are. */
    method SetData(input: seq<Entry<K, Id>>)
      modifies this
      ensures Aggregation.Aggregates(iter, input) && |iter| == |Aggregation.Categories(input)|
      ensures subiter == old(subiter) && subiterInfo == old(subiterInfo)
      ensures Settings() == old(Settings())
    {
      var entries := Aggregation.Ingest(input);
      iter := entries;
    }

    // ----- Iteration -----

    /** The vertical `next`: continue the stack in progress if it has an
        item left, otherwise drain the next category. */
    method NextVertical() returns (r: Option<VerticalBars.VRect<K>>)
      requires orientation == Vertical
      modifies this
      ensures (r, State()) == VerticalBars.Step(Settings(), old(State()))
      ensures Settings() == old(Settings())
    {
      var newInfo: Option<(K, int)> := None;
      var rect: Option<VerticalBars.VRect<K>> := None;
      if subiter.Some? && subiterInfo.Some? {
        var x, base := subiterInfo.value.0, subiterInfo.value.1;
        if subiter.value != [] {
          var item := subiter.value[0];
          subiter := Some(subiter.value[1..]);
          var nx := domain.next(x);
          var s := style(x, item.0, item.1);
          var top := item.1 + base;
          rect := Some(Rect((x, top), (nx, base), s, Margin(0, 0, margin, margin)));
          newInfo := Some((x, top));
        }
      }
      subiterInfo := newInfo;
      if rect.Some? {
        return rect;
      }
      if iter != [] {
        var x, y := iter[0].0, iter[0].1;
        iter := iter[1..];
        var nx := domain.next(x);
        if |y| > 0 {
          var base := baseline(domain.prev(nx));
          var item := y[0];
          var s := style(x, item.0, item.1);
          r := Some(Rect((x, item.1), (nx, base), s, Margin(0, 0, margin, margin)));
          if |y| > 1 {
            subiter := Some(y[1..]);
            subiterInfo := Some((x, item.1));
          }
        } else {
          r := Some(Rect((x, 0), (domain.prev(nx), 0), TransparentFilled, Margin(0, 0, 0, 0)));
        }
        return;
      }
      r := None;
    }

    /** The horizontal `next`: drain the next category and return a bar for
        its first item, or `None` for a category without items. */
    method NextHorizontal() returns (r: Option<HorizontalBars.HRect<K>>)
      requires orientation == Horizontal
      modifies this
      ensures (r, State()) == HorizontalBars.Step(Settings(), old(State()))
      ensures Settings() == old(Settings())
    {
      if iter != [] {
        var y, x := iter[0].0, iter[0].1;
        iter := iter[1..];
        if x != [] {
          var ny := domain.next(y);
          var base := baseline(domain.prev(ny));
          var item := x[0];
          var s := style(y, item.0, item.1);
          r := Some(Rect((item.1, y), (base, ny), s, Margin(margin, margin, 0, 0)));
        } else {
          r := None;
        }
        return;
      }
      r := None;
    }
  }
}

=== FILE: discrete.dfy ===
/** A discretely steppable category domain: every category value has a
    successor and a predecessor. The series uses only these two steps; the
    ordering, the ranging and the mapping to pixels are not modelled. */
module Discrete {

  /** The two step operations of a discrete range, given as values so that
      the model holds for every domain. */
  datatype Discrete<!K> = Discrete(next: K -> K, prev: K -> K)

  /** The property the series relies on when it evaluates the baseline of a
      category `x` as `baseline(prev(next(x)))`: stepping forward and back
      returns to `x`. It is an assumption about the domain, so lemmas that
      need it carry it as a precondition. */
  ghost predicate PrevUndoesNext<K(!new)>(d: Discrete<K>)
  {
    forall x :: d.prev(d.next(x)) == x
  }
}

=== FILE: element.dfy ===
/** The drawable element the bar series produces: an axis-aligned rectangle
    given by two opposite corners, a shape style and four per-side margins.
    Rendering is not modelled; only the values the series puts into a
    rectangle are. */
module Element {

  /** Margins are unsigned 32-bit pixel counts. */
  newtype u32 = x: int | 0 <= x < 0x1_0000_0000

  /** Shape styles are opaque to the series. It creates exactly two styles
      itself: the default solid green fill and the fully transparent fill of
      the empty-category placeholder. Every other style is supplied by the
      caller and only passed through; `Custom` stands for those. */
  datatype ShapeStyle = GreenFilled | TransparentFilled | Custom(handle: nat)

  /** Margins in the order the rectangle's setter takes them:
      top, bottom, left, right. */
  datatype Margin = Margin(top: u32, bottom: u32, left: u32, right: u32)

  /** A rectangle with corners `corner0` and `corner1`, in the coordinate
      space `P` of the chart (category and amount, in either order). */
  datatype Rect<P> = Rect(corner0: P, corner1: P, style: ShapeStyle, margin: Margin)

  /** Margins of a vertical bar: squeezed left and right only. */
  function VerticalMargin(m: u32): Margin
  {
    Margin(0, 0, m, m)
  }

  /** Margins of a horizontal bar: squeezed top and bottom only. */
  function HorizontalMargin(m: u32): Margin
  {
    Margin(m, m, 0, 0)
  }

  /** No margin on any side. */
  const NoMargin: Margin := Margin(0, 0, 0, 0)
}

=== FILE: horizontal.dfy ===
/** The horizontal bar emitter. Unlike the vertical one it does not stack:
    each call drains one category and emits a single bar for the category's
    first item only, and a category without items makes that call return
    `None` even though later categories remain. `Emitted` is the closed-form
    account of the call-by-call results, `Shown` the bars a consumer that
    stops at the first `None` receives. */
module HorizontalBars {
  import opened Element
  import opened Discrete
  import opened SeriesState

  /** Horizontal bars live in (amount, category) space. */
  type HRect<K> = Rect<(int, K)>

  /** The bar of category `y` for its first item: from the amount at `y` to
      the category's baseline at `next(y)`, squeezed top and bottom. */
  function Bar<K, Id>(cfg: Config<K, Id>, y: K, item: Item<Id>): HRect<K>
  {
    var ny := cfg.domain.next(y);
    Rect((item.1, y), (cfg.baseline(cfg.domain.prev(ny)), ny), cfg.style(y, item.0, item.1), HorizontalMargin(cfg.margin))
  }

  /** What the call that drains entry `e` returns. */
  function Emit<K, Id>(cfg: Config<K, Id>, e: Entry<K, Id>): Option<HRect<K>>
  {
    if e.1 != [] then Some(Bar(cfg, e.0, e.1[0])) else None
  }

  // ----- One call of `next` -----

  /** One call of the horizontal `next`: the result and the state it leaves.
      Only `iter` is ever advanced; the stack fields are not used. */
  function Step<K, Id>(cfg: Config<K, Id>, c: Cursor<K, Id>): (Option<HRect<K>>, Cursor<K, Id>)
  {
    if c.iter == [] then (None, c)
    else
      var y, xs := c.iter[0].0, c.iter[0].1;
      if xs != [] then (Some(Bar(cfg, y, xs[0])), c.(iter := c.iter[1..]))
      else (None, c.(iter := c.iter[1..]))
  }

  /** The horizontal `next` as a value, for pulling it repeatedly. */
  function Pull<K, Id>(cfg: Config<K, Id>): Cursor<K, Id> -> (Option<HRect<K>>, Cursor<K, Id>)
  {
    c => Step(cfg, c)
  }

  // ----- The output, in closed form -----

  /** The result of each call that drains one of `es`, in order. */
  function Emitted<K, Id>(cfg: Config<K, Id>, es: seq<Entry<K, Id>>): seq<Option<HRect<K>>>
  {
    if es == [] then [] else [Emit(cfg, es[0])] + Emitted(cfg, es[1..])
  }

  /** The bars a consumer that stops at the first `None` receives: those of
      the longest run of non-empty categories at the front. */
  function Shown<K, Id>(cfg: Config<K, Id>, es: seq<Entry<K, Id>>): seq<HRect<K>>
  {
    if es == [] || es[0].1 == [] then [] else [Bar(cfg, es[0].0, es[0].1[0])] + Shown(cfg, es[1..])
  }

  // ----- Properties -----

  /** One call: it consumes exactly one category when there is one, returns
      what `Emit` says for it, and never touches the stack fields; with no
      category left it returns `None` and changes nothing. */
  lemma StepDrainsOne<K, Id>(cfg: Config<K, Id>, c: Cursor<K, Id>)
    ensures c.iter == [] ==> Step(cfg, c) == (None, c)
    ensures c.iter != [] ==> Step(cfg, c).0 == Emit(cfg, c.iter[0]) && Step(cfg, c).1 == c.(iter := c.iter[1..])
    ensures Step(cfg, c).0.Some? <==> c.iter != [] && c.iter[0].1 != []
  {
  }

  /** Pulling once per category yields `Emitted` and leaves nothing to drain. */
  lemma {:induction false} RunEmits<K, Id>(cfg: Config<K, Id>, c: Cursor<K, Id>)
    ensures Pulls(Pull(cfg), c, |c.iter|).0 == Emitted(cfg, c.iter)
    ensures Pulls(Pull(cfg), c, |c.iter|).1 == c.(iter := [])
    decreases |c.iter|
  {
    if c.iter != [] {
      var c' := c.(iter := c.iter[1..]);
      assert Step(cfg, c) == (Emit(cfg, c.iter[0]), c');
      RunEmits(cfg, c');
      assert c'.(iter := []) == c.(iter := []);
    }
  }

  /** Once every category has been drained, every call returns `None` and
      the state stays as it is. */
  lemma {:induction false} RunAfterEnd<K, Id>(cfg: Config<K, Id>, c: Cursor<K, Id>, n: nat)
    requires c.iter == []
    ensures Pulls(Pull(cfg), c, n).0 == Nones(n)
    ensures Pulls(Pull(cfg), c, n).1 == c
    decreases n
  {
    if n > 0 {
      assert Step(cfg, c) == (None, c);
      RunAfterEnd(cfg, c, n - 1);
      assert Pulls(Pull(cfg), c, n).0 == [None] + Nones(n - 1);
    }
  }

  /** The calls return one result per category: the bars of the non-empty
      front run first, then `None` for the first empty category, if any. */
  lemma {:induction false} EmittedShown<K, Id>(cfg: Config<K, Id>, es: seq<Entry<K, Id>>)
    ensures |Emitted(cfg, es)| == |es|
    ensures |Shown(cfg, es)| <= |es|
    ensures Emitted(cfg, es)[..|Shown(cfg, es)|] == MapSome(Shown(cfg, es))
    ensures |Shown(cfg, es)| < |es| ==> Emitted(cfg, es)[|Shown(cfg, es)|] == None && es[|Shown(cfg, es)|].1 == []
  {
    if es != [] {
      EmittedShown(cfg, es[1..]);
      if es[0].1 != [] {
        var b := Bar(cfg, es[0].0, es[0].1[0]);
        var n := |Shown(cfg, es[1..])|;
        assert Emitted(cfg, es)[..n + 1] == [Some(b)] + Emitted(cfg, es[1..])[..n];
        MapSomeCons(b, Shown(cfg, es[1..]));
      }
    }
  }

  /** An empty category does not end the series: the call that drains it
      returns `None`, and the very next call returns the bar of the
      following category when that one has items. */
  lemma ResumesAfterEmpty<K, Id>(cfg: Config<K, Id>, c: Cursor<K, Id>)
    requires |c.iter| >= 2 && c.iter[0].1 == [] && c.iter[1].1 != []
    ensures Pulls(Pull(cfg), c, 2).0 == [None, Some(Bar(cfg, c.iter[1].0, c.iter[1].1[0]))]
  {
    var c' := Step(cfg, c).1;
    assert c'.iter[0] == c.iter[1];
    assert Pulls(Pull(cfg), c, 2).0 == [Step(cfg, c).0] + [Step(cfg, c').0];
  }

  /** Only a category's first item matters: the remaining items (and their
      amounts) never influence any bar. */
  lemma OnlyFirstItem<K, Id>(cfg: Config<K, Id>, c: Cursor<K, Id>, rest: seq<Item<Id>>)
    requires c.iter != [] && c.iter[0].1 != []
    ensures var d := c.(iter := [(c.iter[0].0, [c.iter[0].1[0]] + rest)] + c.iter[1..]);
      Step(cfg, d) == Step(cfg, c)
  {
    var d := c.(iter := [(c.iter[0].0, [c.iter[0].1[0]] + rest)] + c.iter[1..]);
    assert d.iter[1..] == c.iter[1..];
  }

  /** Shape of each bar: it spans from its amount to the category's
      baseline, from `y` to `next(y)`, with top/bottom margins only; with
      `prev(next(y)) == y` the baseline is the one of `y` itself. */
  lemma BarShape<K(!new), Id>(cfg: Config<K, Id>, y: K, item: Item<Id>)
    ensures Bar(cfg, y, item).corner0 == (item.1, y)
    ensures Bar(cfg, y, item).corner1.1 == cfg.domain.next(y)
    ensures Bar(cfg, y, item).style == cfg.style(y, item.0, item.1)
    ensures Bar(cfg, y, item).margin == Margin(cfg.margin, cfg.margin, 0, 0)
    ensures PrevUndoesNext(cfg.domain) ==> Bar(cfg, y, item).corner1 == (cfg.baseline(y), cfg.domain.next(y))
  {
  }
}

=== FILE: series_state.dfy ===
/** The values a bar series is made of: its configuration (style function,
    baseline function, margin and category domain) and its iteration state
    (the remaining drained categories and the pending stack). */
module SeriesState {
  import opened Element
  import opened Discrete

  datatype Option<T> = None | Some(value: T)

  /** One stacked item of a category: its identity and its amount. */
  type Item<Id> = (Id, int)

  /** A category with its stacked items, as given in the input and as
      enumerated from the aggregated map. */
  type Entry<K, Id> = (K, seq<Item<Id>>)

  /** The two orientations, chosen by a type tag in the series. */
  datatype Orientation = Vertical | Horizontal

  /** Everything `next` reads but never changes. `style` receives the
      category, the identity and the raw amount of a segment; `baseline`
      gives the value a category's stack starts from. */
  datatype Config<!K, !Id> = Config(
    domain: Discrete<K>,
    style: (K, Id, int) -> ShapeStyle,
    baseline: K -> int,
    margin: u32)

  /** Everything `next` changes: `iter` holds the categories not yet drained
      from the aggregated map, `subiter` the remaining items of the stack in
      progress and `subiterInfo` its category and running top. */
  datatype Cursor<K, Id> = Cursor(
    iter: seq<Entry<K, Id>>,
    subiter: Option<seq<Item<Id>>>,
    subiterInfo: Option<(K, int)>)

  /** The state invariant every call keeps: a running top is only ever
      stored together with a stack. */
  predicate Consistent<K, Id>(c: Cursor<K, Id>)
  {
    c.subiterInfo.Some? ==> c.subiter.Some?
  }

  /** Wraps every element in `Some`: the results of that many successful pulls. */
  function MapSome<T>(s: seq<T>): (r: seq<Option<T>>)
    ensures |r| == |s|
  {
    if s == [] then [] else [Some(s[0])] + MapSome(s[1..])
  }

  lemma MapSomeCons<T>(a: T, s: seq<T>)
    ensures MapSome([a] + s) == [Some(a)] + MapSome(s)
  {
    assert ([a] + s)[1..] == s;
  }

  /** Sequence bookkeeping for one emitted element: if `whole` is `head`
      followed by `rest`, then `whole + tail` starts with `head` and continues
      with `rest + tail`. */
  lemma ConsThenTail<T>(whole: seq<T>, head: T, rest: seq<T>, tail: seq<T>)
    requires whole == [head] + rest
    ensures (whole + tail)[0] == head
    ensures (whole + tail)[1..] == rest + tail
  {
    assert whole + tail == [head] + (rest + tail);
  }

  /** `n` pulls that all returned `None`. */
  function Nones<T>(n: nat): (r: seq<Option<T>>)
    ensures |r| == n
    ensures forall i :: 0 <= i < n ==> r[i] == None
  {
    seq(n, _ => None)
  }

  // ----- Pulling from a single-step function -----

  /** `n` successive calls of the one-call function `next` from state `s`:
      their results and the final state. */
  function Pulls<S, R>(next: S -> (Option<R>, S), s: S, n: nat): (out: (seq<Option<R>>, S))
    ensures |out.0| == n
    decreases n
  {
    if n == 0 then ([], s)
    else
      var t := Pulls(next, next(s).1, n - 1);
      ([next(s).0] + t.0, t.1)
  }

  /** At state `t`, one call of `next` returns the head of what `owed(t)`
      says is still to come and leaves exactly its tail owed; when nothing is
      owed it returns `None` and still owes nothing. */
  ghost predicate EmitsHead<S, R>(next: S -> (Option<R>, S), owed: S -> seq<R>, t: S)
  {
    if owed(t) == [] then next(t).0 == None && owed(next(t).1) == []
    else next(t).0 == Some(owed(t)[0]) && owed(next(t).1) == owed(t)[1..]
  }

  /** If every call emits the head of what is owed, then `n` calls emit the
      first `n` owed elements, in order, and leave the rest owed. */
  lemma {:induction false} PullsFollow<S, R>(next: S -> (Option<R>, S), owed: S -> seq<R>, s: S, n: nat)
    requires forall t :: EmitsHead(next, owed, t)
    requires n <= |owed(s)|
    ensures Pulls(next, s, n).0 == MapSome(owed(s)[..n])
    ensures owed(Pulls(next, s, n).1) == owed(s)[n..]
    decreases n
  {
    if n == 0 {
      assert owed(s)[..0] == [];
    } else {
      assert EmitsHead(next, owed, s);
      var s' := next(s).1;
      PullsFollow(next, owed, s', n - 1);
      assert owed(s)[..n] == [owed(s)[0]] + owed(s')[..n - 1];
      MapSomeCons(owed(s)[0], owed(s')[..n - 1]);
      assert owed(s')[n - 1..] == owed(s)[n..];
    }
  }

  /** Once nothing is owed, every further call returns `None`. */
  lemma {:induction false} PullsAfterEnd<S, R>(next: S -> (Option<R>, S), owed: S -> seq<R>, s: S, n: nat)
    requires forall t :: EmitsHead(next, owed, t)
    requires owed(s) == []
    ensures Pulls(next, s, n).0 == Nones(n)
    ensures owed(Pulls(next, s, n).1) == []
    decreases n
  {
    if n > 0 {
      assert EmitsHead(next, owed, s);
      PullsAfterEnd(next, owed, next(s).1, n - 1);
      assert Pulls(next, s, n).0 == [None] + Nones(n - 1);
    }
  }
}

=== FILE: vertical.dfy ===
/** The vertical bar emitter: one call of `next` either emits the next
    stacked segment of the category in progress, or drains the next category
    and emits its first segment (or, for a category without items, a
    transparent placeholder). `Step` is that call as a function of the
    configuration and the iteration state; `Expected` is an independent,
    closed-form account of the whole output, and `RunAll` proves that
    pulling until exhaustion produces exactly it. */
module VerticalBars {
  import opened Element
  import opened Discrete
  import opened SeriesState

  /** Vertical bars live in (category, amount) space. */
  type VRect<K> = Rect<(K, int)>

  /** The sum of the amounts of `items`. */
  function Total<Id>(items: seq<Item<Id>>): int
  {
    if items == [] then 0 else Total(items[..|items| - 1]) + items[|items| - 1].1
  }

  lemma {:induction false} TotalHead<Id>(items: seq<Item<Id>>)
    requires items != []
    ensures Total(items) == items[0].1 + Total(items[1..])
  {
    if |items| == 1 {
      assert items[1..] == [];
      assert items[..0] == [];
    } else {
      var init := items[..|items| - 1];
      TotalHead(init);
      assert init[1..] == items[1..][..|items[1..]| - 1];
    }
  }

  /** The running total after `j` items, split after the first item. */
  lemma TotalPrefix<Id>(items: seq<Item<Id>>, j: nat)
    requires 1 <= j <= |items|
    ensures Total(items[..j]) == items[0].1 + Total(items[1..][..j - 1])
  {
    TotalHead(items[..j]);
    assert items[..j][1..] == items[1..][..j - 1];
  }

  // ----- The pieces one call puts together -----

  /** The stand-in for a category without items: zero height at amount 0,
      spanning from `x` to `prev(next(x))`, fully transparent, no margins. */
  function Placeholder<K, Id>(cfg: Config<K, Id>, x: K): VRect<K>
  {
    Rect((x, 0), (cfg.domain.prev(cfg.domain.next(x)), 0), TransparentFilled, NoMargin)
  }

  /** The first segment of category `x`: from the category's baseline up to
      the raw first amount (the baseline is not added to it). */
  function FirstSegment<K, Id>(cfg: Config<K, Id>, x: K, item: Item<Id>): VRect<K>
  {
    var nx := cfg.domain.next(x);
    Rect((x, item.1), (nx, cfg.baseline(cfg.domain.prev(nx))), cfg.style(x, item.0, item.1), VerticalMargin(cfg.margin))
  }

  /** A later segment of category `x`: from the running top `base` up to
      `base` plus the item's amount. */
  function LaterSegment<K, Id>(cfg: Config<K, Id>, x: K, base: int, item: Item<Id>): VRect<K>
  {
    Rect((x, item.1 + base), (cfg.domain.next(x), base), cfg.style(x, item.0, item.1), VerticalMargin(cfg.margin))
  }

  // ----- How many pulls are left -----

  /** Segments still owed by the stack in progress. */
  function PendingCount<K, Id>(c: Cursor<K, Id>): nat
  {
    if c.subiter.Some? && c.subiterInfo.Some? then |c.subiter.value| else 0
  }

  /** Rectangles one drained category yields: one per item, or the placeholder. */
  function Width<K, Id>(e: Entry<K, Id>): nat
  {
    if |e.1| == 0 then 1 else |e.1|
  }

  function Widths<K, Id>(es: seq<Entry<K, Id>>): nat
  {
    if es == [] then 0 else Width(es[0]) + Widths(es[1..])
  }

  /** Rectangles still to come from state `c`. */
  function Remaining<K, Id>(c: Cursor<K, Id>): nat
  {
    PendingCount(c) + Widths(c.iter)
  }

  // ----- One call of `next` -----

  /** One call of the vertical `next`: the rectangle it returns and the state
      it leaves. */
  function Step<K, Id>(cfg: Config<K, Id>, c: Cursor<K, Id>): (Option<VRect<K>>, Cursor<K, Id>)
  {
    if c.subiter.Some? && c.subiterInfo.Some? && |c.subiter.value| > 0 then
      var item := c.subiter.value[0];
      var x, base := c.subiterInfo.value.0, c.subiterInfo.value.1;
      (Some(LaterSegment(cfg, x, base, item)),
       c.(subiter := Some(c.subiter.value[1..]), subiterInfo := Some((x, item.1 + base))))
    else if c.iter == [] then
      (None, c.(subiterInfo := None))
    else
      var x, items := c.iter[0].0, c.iter[0].1;
      if |items| == 0 then
        (Some(Placeholder(cfg, x)), c.(iter := c.iter[1..], subiterInfo := None))
      else if |items| == 1 then
        (Some(FirstSegment(cfg, x, items[0])), c.(iter := c.iter[1..], subiterInfo := None))
      else
        (Some(FirstSegment(cfg, x, items[0])),
         Cursor(c.iter[1..], Some(items[1..]), Some((x, items[0].1))))
  }

  /** The vertical `next` as a value, for pulling it repeatedly. */
  function Pull<K, Id>(cfg: Config<K, Id>): Cursor<K, Id> -> (Option<VRect<K>>, Cursor<K, Id>)
  {
    c => Step(cfg, c)
  }

  // ----- The output, in closed form -----

  /** Segment `i` of a non-empty category: its top is the sum of the first
      `i + 1` amounts; its bottom is the category's baseline for the first
      segment and the previous segment's top otherwise. */
  function Segment<K, Id>(cfg: Config<K, Id>, x: K, items: seq<Item<Id>>, i: nat): VRect<K>
    requires i < |items|
  {
    var nx := cfg.domain.next(x);
    Rect((x, Total(items[..i + 1])),
         (nx, if i == 0 then cfg.baseline(cfg.domain.prev(nx)) else Total(items[..i])),
         cfg.style(x, items[i].0, items[i].1),
         VerticalMargin(cfg.margin))
  }

  /** Everything one drained category yields. */
  function CategoryBars<K, Id>(cfg: Config<K, Id>, e: Entry<K, Id>): seq<VRect<K>>
  {
    if |e.1| == 0 then [Placeholder(cfg, e.0)]
    else seq(|e.1|, i requires 0 <= i < |e.1| => Segment(cfg, e.0, e.1, i))
  }

  /** The segments a stack in progress still owes, stacked on `base`. */
  function Continuation<K, Id>(cfg: Config<K, Id>, x: K, base: int, rest: seq<Item<Id>>): seq<VRect<K>>
  {
    seq(|rest|, i requires 0 <= i < |rest| =>
      Rect((x, base + Total(rest[..i + 1])), (cfg.domain.next(x), base + Total(rest[..i])),
           cfg.style(x, rest[i].0, rest[i].1), VerticalMargin(cfg.margin)))
  }

  function Pending<K, Id>(cfg: Config<K, Id>, c: Cursor<K, Id>): seq<VRect<K>>
  {
    if c.subiter.Some? && c.subiterInfo.Some? then
      Continuation(cfg, c.subiterInfo.value.0, c.subiterInfo.value.1, c.subiter.value)
    else []
  }

  /** The categories' outputs one after the other, in drain order. */
  function Expected<K, Id>(cfg: Config<K, Id>, es: seq<Entry<K, Id>>): seq<VRect<K>>
  {
    if es == [] then [] else CategoryBars(cfg, es[0]) + Expected(cfg, es[1..])
  }

  // ----- Lemmas -----

  /** The pending stack emits its head segment and leaves the rest stacked
      on the new top. */
  lemma ContinuationCons<K, Id>(cfg: Config<K, Id>, x: K, base: int, rest: seq<Item<Id>>)
    requires rest != []
    ensures Continuation(cfg, x, base, rest)
         == [LaterSegment(cfg, x, base, rest[0])] + Continuation(cfg, x, rest[0].1 + base, rest[1..])
  {
    var lhs := Continuation(cfg, x, base, rest);
    var rhs := [LaterSegment(cfg, x, base, rest[0])] + Continuation(cfg, x, rest[0].1 + base, rest[1..]);
    forall i | 0 <= i < |rest| ensures lhs[i] == rhs[i] {
      TotalPrefix(rest, i + 1);
      if i > 0 {
        TotalPrefix(rest, i);
      } else {
        assert rest[..0] == [];
      }
    }
  }

  /** A non-empty category is its first segment followed by the rest of its
      items stacked on the raw first amount. */
  lemma CategorySplit<K, Id>(cfg: Config<K, Id>, e: Entry<K, Id>)
    requires e.1 != []
    ensures CategoryBars(cfg, e)
         == [FirstSegment(cfg, e.0, e.1[0])] + Continuation(cfg, e.0, e.1[0].1, e.1[1..])
  {
    var items := e.1;
    var lhs := CategoryBars(cfg, e);
    var rhs := [FirstSegment(cfg, e.0, items[0])] + Continuation(cfg, e.0, items[0].1, items[1..]);
    forall i | 0 <= i < |items| ensures lhs[i] == rhs[i] {
      TotalPrefix(items, i + 1);
      if i > 0 {
        TotalPrefix(items, i);
      }
    }
  }

  /** Everything still owed from state `c`: the pending stack's segments,
      then every undrained category's output, in drain order. */
  function Output<K, Id>(cfg: Config<K, Id>, c: Cursor<K, Id>): seq<VRect<K>>
  {
    Pending(cfg, c) + Expected(cfg, c.iter)
  }

  /** `Output` as a value, to pair with `Pull`. */
  function Owed<K, Id>(cfg: Config<K, Id>): Cursor<K, Id> -> seq<VRect<K>>
  {
    c => Output(cfg, c)
  }

  /** A call on a stack in progress emits the head of what the stack owes
      and leaves the rest owed, without draining a category. */
  lemma StackingOutput<K, Id>(cfg: Config<K, Id>, c: Cursor<K, Id>)
    requires PendingCount(c) > 0
    ensures Step(cfg, c).0.Some?
    ensures Pending(cfg, c) == [Step(cfg, c).0.value] + Pending(cfg, Step(cfg, c).1)
    ensures Step(cfg, c).1.iter == c.iter
  {
    var rest := c.subiter.value;
    ContinuationCons(cfg, c.subiterInfo.value.0, c.subiterInfo.value.1, rest);
  }

  /** The call that drains a category emits the head of its closed-form
      output and leaves the rest of it pending. */
  lemma AdvanceOutput<K, Id>(cfg: Config<K, Id>, c: Cursor<K, Id>)
    requires PendingCount(c) == 0 && c.iter != []
    ensures Pending(cfg, c) == []
    ensures Step(cfg, c).0 == Some(CategoryBars(cfg, c.iter[0])[0])
    ensures CategoryBars(cfg, c.iter[0]) == [CategoryBars(cfg, c.iter[0])[0]] + Pending(cfg, Step(cfg, c).1)
    ensures Step(cfg, c).1.iter == c.iter[1..]
  {
    var e := c.iter[0];
    AdvanceStep(cfg, c);
    if |e.1| > 1 {
      CategorySplit(cfg, e);
    }
  }

  /** The simulation step: every call of `next` returns exactly the head of
      the closed-form output still owed and leaves its tail owed; with
      nothing owed it returns `None`. */
  lemma StepEmitsHead<K, Id>(cfg: Config<K, Id>, c: Cursor<K, Id>)
    ensures EmitsHead(Pull(cfg), Owed(cfg), c)
  {
    var s := Step(cfg, c);
    assert Pull(cfg)(c) == s;
    assert Owed(cfg)(c) == Output(cfg, c) && Owed(cfg)(s.1) == Output(cfg, s.1);
    if PendingCount(c) > 0 {
      StackingEmitsHead(cfg, c);
    } else if c.iter == [] {
      assert Pending(cfg, c) == [] && Output(cfg, c) == [];
      assert s.1.iter == [] && s.1.subiterInfo == None;
      assert Output(cfg, s.1) == [];
    } else {
      DrainingEmitsHead(cfg, c);
    }
  }

  /** `StepEmitsHead` on a stack in progress. */
  lemma StackingEmitsHead<K, Id>(cfg: Config<K, Id>, c: Cursor<K, Id>)
    requires PendingCount(c) > 0
    ensures Step(cfg, c).0 == Some(Output(cfg, c)[0])
    ensures Output(cfg, Step(cfg, c).1) == Output(cfg, c)[1..]
  {
    var s := Step(cfg, c);
    StackingOutput(cfg, c);
    var tail := Expected(cfg, c.iter);
    assert Output(cfg, s.1) == Pending(cfg, s.1) + tail;
    ConsThenTail(Pending(cfg, c), s.0.value, Pending(cfg, s.1), tail);
  }

  /** `StepEmitsHead` on a call that drains a category. */
  lemma DrainingEmitsHead<K, Id>(cfg: Config<K, Id>, c: Cursor<K, Id>)
    requires PendingCount(c) == 0 && c.iter != []
    ensures Step(cfg, c).0 == Some(Output(cfg, c)[0])
    ensures Output(cfg, Step(cfg, c).1) == Output(cfg, c)[1..]
  {
    var s := Step(cfg, c);
    AdvanceOutput(cfg, c);
    var bars := CategoryBars(cfg, c.iter[0]);
    var tail := Expected(cfg, c.iter[1..]);
    assert Output(cfg, c) == bars + tail;
    assert Output(cfg, s.1) == Pending(cfg, s.1) + tail;
    ConsThenTail(bars, bars[0], Pending(cfg, s.1), tail);
  }

  lemma AllStepsEmitHead<K, Id>(cfg: Config<K, Id>)
    ensures forall t :: EmitsHead(Pull(cfg), Owed(cfg), t)
  {
    forall t ensures EmitsHead(Pull(cfg), Owed(cfg), t) {
      StepEmitsHead(cfg, t);
    }
  }

  /** The number of rectangles still owed is the count of pulls left. */
  lemma {:induction false} ExpectedLength<K, Id>(cfg: Config<K, Id>, es: seq<Entry<K, Id>>)
    ensures |Expected(cfg, es)| == Widths(es)
  {
    if es != [] {
      ExpectedLength(cfg, es[1..]);
    }
  }

  /** `n` calls from any state return the first `n` rectangles still owed,
      in order, and leave the rest owed. */
  lemma RunFollowsOutput<K, Id>(cfg: Config<K, Id>, c: Cursor<K, Id>, n: nat)
    requires n <= |Output(cfg, c)|
    ensures Pulls(Pull(cfg), c, n).0 == MapSome(Output(cfg, c)[..n])
    ensures Output(cfg, Pulls(Pull(cfg), c, n).1) == Output(cfg, c)[n..]
  {
    AllStepsEmitHead(cfg);
    assert Owed(cfg)(c) == Output(cfg, c);
    PullsFollow(Pull(cfg), Owed(cfg), c, n);
    assert Owed(cfg)(Pulls(Pull(cfg), c, n).1) == Output(cfg, Pulls(Pull(cfg), c, n).1);
  }

  /** State `c` is exhausted: nothing drained is left and no stack is owed. */
  predicate Exhausted<K, Id>(c: Cursor<K, Id>)
  {
    c.iter == [] && PendingCount(c) == 0
  }

  /** Pulling `Remaining(c)` times yields the pending segments and then every
      drained category's output, in drain order; the state is then exhausted
      and every further call returns `None`. */
  lemma RunAll<K, Id>(cfg: Config<K, Id>, c: Cursor<K, Id>, more: nat)
    ensures Pulls(Pull(cfg), c, Remaining(c)).0 == MapSome(Pending(cfg, c) + Expected(cfg, c.iter))
    ensures Exhausted(Pulls(Pull(cfg), c, Remaining(c)).1)
    ensures Pulls(Pull(cfg), Pulls(Pull(cfg), c, Remaining(c)).1, more).0 == Nones(more)
  {
    ExpectedLength(cfg, c.iter);
    var out := Output(cfg, c);
    assert |out| == Remaining(c);
    assert out[..|out|] == out;
    RunFollowsOutput(cfg, c, Remaining(c));
    var last := Pulls(Pull(cfg), c, Remaining(c)).1;
    assert Output(cfg, last) == [];
    ExpectedLength(cfg, last.iter);
    AllStepsEmitHead(cfg);
    PullsAfterEnd(Pull(cfg), Owed(cfg), last, more);
  }

  /** From a state with no stack pending, the next `Width` calls yield exactly
      the first category's output, one category at a time: a category with
      n >= 1 items gives n consecutive rectangles, an empty one gives the
      placeholder, and afterwards only the later categories are owed. */
  lemma OneCategory<K, Id>(cfg: Config<K, Id>, c: Cursor<K, Id>)
    requires PendingCount(c) == 0 && c.iter != []
    ensures Pulls(Pull(cfg), c, Width(c.iter[0])).0 == MapSome(CategoryBars(cfg, c.iter[0]))
    ensures Output(cfg, Pulls(Pull(cfg), c, Width(c.iter[0])).1) == Expected(cfg, c.iter[1..])
  {
    var bars := CategoryBars(cfg, c.iter[0]);
    assert Pending(cfg, c) == [];
    assert Output(cfg, c) == bars + Expected(cfg, c.iter[1..]);
    assert |bars| == Width(c.iter[0]);
    RunFollowsOutput(cfg, c, |bars|);
    assert Output(cfg, c)[..|bars|] == bars;
    assert Output(cfg, c)[|bars|..] == Expected(cfg, c.iter[1..]);
  }

  /** A freshly built series (no stack pending) yields exactly the
      closed-form output of its drained categories and then `None` forever. */
  lemma FreshSeries<K, Id>(cfg: Config<K, Id>, es: seq<Entry<K, Id>>, more: nat)
    ensures Pulls(Pull(cfg), Cursor(es, None, None), Widths(es)).0 == MapSome(Expected(cfg, es))
    ensures Pulls(Pull(cfg), Pulls(Pull(cfg), Cursor(es, None, None), Widths(es)).1, more).0 == Nones(more)
  {
    var c := Cursor(es, None, None);
    RunAll(cfg, c, more);
    assert Pending(cfg, c) + Expected(cfg, es) == Expected(cfg, es);
  }

  /** Each call keeps the state consistent; a call that returns a rectangle
      uses up exactly one of the rectangles still to come, and a call returns
      `None` exactly when none are left. */
  lemma StepCounts<K, Id>(cfg: Config<K, Id>, c: Cursor<K, Id>)
    ensures Consistent(c) ==> Consistent(Step(cfg, c).1)
    ensures Step(cfg, c).0.None? <==> Remaining(c) == 0
    ensures Step(cfg, c).0.Some? ==> Remaining(Step(cfg, c).1) == Remaining(c) - 1
  {
  }

  /** A call on a stack in progress: the segment spans from the stored top
      `base` to `base` plus the raw amount, gets the style of the raw amount
      and left/right margins only, and stores the new top. */
  lemma StackingStep<K, Id>(cfg: Config<K, Id>, c: Cursor<K, Id>)
    requires c.subiter.Some? && c.subiterInfo.Some? && c.subiter.value != []
    ensures var x, base, item := c.subiterInfo.value.0, c.subiterInfo.value.1, c.subiter.value[0];
      var (r, c') := Step(cfg, c);
      && r.Some?
      && r.value.corner0 == (x, base + item.1)
      && r.value.corner1 == (cfg.domain.next(x), base)
      && r.value.style == cfg.style(x, item.0, item.1)
      && r.value.margin == Margin(0, 0, cfg.margin, cfg.margin)
      && c'.subiterInfo == Some((x, base + item.1))
      && c'.subiter == Some(c.subiter.value[1..])
      && c'.iter == c.iter
  {
  }

  /** A call that starts category `x`: it drains exactly that category, and
      leaves a stack pending exactly when the category has more than one
      item, stored with the raw first amount as running top. */
  lemma AdvanceStep<K, Id>(cfg: Config<K, Id>, c: Cursor<K, Id>)
    requires PendingCount(c) == 0 && c.iter != []
    ensures var x, items := c.iter[0].0, c.iter[0].1;
      var (r, c') := Step(cfg, c);
      && r == Some(CategoryBars(cfg, c.iter[0])[0])
      && c'.iter == c.iter[1..]
      && (c'.subiterInfo.Some? <==> |items| > 1)
      && (|items| > 1 ==> c'.subiterInfo == Some((x, items[0].1)) && c'.subiter == Some(items[1..]))
      && (|items| <= 1 ==> c'.subiter == c.subiter)
  {
    var items := c.iter[0].1;
    if items != [] {
      TotalPrefix(items, 1);
      assert items[1..][..0] == [];
      assert CategoryBars(cfg, c.iter[0])[0] == FirstSegment(cfg, c.iter[0].0, items[0]);
    }
  }

  /** With `prev(next(x)) == x`, the first segment starts at the baseline of
      `x` itself, and the placeholder is the degenerate rectangle at (x, 0). */
  lemma FirstSegmentFromBaseline<K(!new), Id>(cfg: Config<K, Id>, x: K, item: Item<Id>)
    requires PrevUndoesNext(cfg.domain)
    ensures FirstSegment(cfg, x, item).corner1 == (cfg.domain.next(x), cfg.baseline(x))
    ensures FirstSegment(cfg, x, item).corner0 == (x, item.1)
    ensures Placeholder(cfg, x) == Rect((x, 0), (x, 0), TransparentFilled, Margin(0, 0, 0, 0))
  {
  }

  /** Stacking: every segment of a category after the first starts where
      the previous one ends, every top is a prefix sum of the raw amounts,
      and the last top is the category's total. */
  lemma {:induction false} StackedTops<K, Id>(cfg: Config<K, Id>, e: Entry<K, Id>)
    requires e.1 != []
    ensures |CategoryBars(cfg, e)| == |e.1|
    ensures forall i :: 0 <= i < |e.1| ==> CategoryBars(cfg, e)[i].corner0.1 == Total(e.1[..i + 1])
    ensures forall i :: 0 < i < |e.1| ==> CategoryBars(cfg, e)[i].corner1.1 == CategoryBars(cfg, e)[i - 1].corner0.1
    ensures CategoryBars(cfg, e)[|e.1| - 1].corner0.1 == Total(e.1)
  {
    assert e.1[..|e.1|] == e.1;
  }

  /** With the default zero baseline the segments tile [0, total]: segment i
      spans from the sum of the first i amounts to the sum of the first i + 1. */
  lemma ZeroBaselineStacks<K(!new), Id>(cfg: Config<K, Id>, e: Entry<K, Id>)
    requires forall k :: cfg.baseline(k) == 0
    requires e.1 != []
    ensures forall i :: 0 <= i < |e.1| ==>
      CategoryBars(cfg, e)[i].corner1.1 == Total(e.1[..i]) && CategoryBars(cfg, e)[i].corner0.1 == Total(e.1[..i + 1])
  {
    forall i | 0 <= i < |e.1|
      ensures CategoryBars(cfg, e)[i].corner1.1 == Total(e.1[..i])
    {
      assert CategoryBars(cfg, e)[i] == Segment(cfg, e.0, e.1, i);
      if i == 0 {
        assert e.1[..0] == [];
        assert cfg.baseline(cfg.domain.prev(cfg.domain.next(e.0))) == 0;
      }
    }
  }

  /** Style and margins of one category's output: an empty category gives
      exactly the placeholder, transparent and without margins; every segment
      of a non-empty category is styled from its own item and squeezed left
      and right by the configured margin. */
  lemma CategoryStyle<K, Id>(cfg: Config<K, Id>, e: Entry<K, Id>)
    ensures e.1 == [] ==> CategoryBars(cfg, e) == [Placeholder(cfg, e.0)]
    ensures Placeholder(cfg, e.0).style == TransparentFilled && Placeholder(cfg, e.0).margin == Margin(0, 0, 0, 0)
    ensures e.1 != [] ==> forall i :: 0 <= i < |e.1| ==>
      CategoryBars(cfg, e)[i].margin == Margin(0, 0, cfg.margin, cfg.margin)
      && CategoryBars(cfg, e)[i].style == cfg.style(e.0, e.1[i].0, e.1[i].1)
  {
  }

  /** Margins over the whole output: every rectangle is squeezed left and
      right by the configured margin unless it is the placeholder of an empty
      category, and every empty category contributes its placeholder. */
  lemma {:induction false} ExpectedMargins<K, Id>(cfg: Config<K, Id>, es: seq<Entry<K, Id>>)
    ensures forall r :: r in Expected(cfg, es) ==>
      r.margin == Margin(0, 0, cfg.margin, cfg.margin)
      || exists i :: 0 <= i < |es| && es[i].1 == [] && r == Placeholder(cfg, es[i].0)
    ensures forall i :: 0 <= i < |es| && es[i].1 == [] ==> Placeholder(cfg, es[i].0) in Expected(cfg, es)
  {
    if es != [] {
      ExpectedMargins(cfg, es[1..]);
      CategoryStyle(cfg, es[0]);
      var bars := CategoryBars(cfg, es[0]);
      var rest := Expected(cfg, es[1..]);
      assert Expected(cfg, es) == bars + rest;
      forall r | r in Expected(cfg, es)
        ensures r.margin == Margin(0, 0, cfg.margin, cfg.margin)
             || exists i :: 0 <= i < |es| && es[i].1 == [] && r == Placeholder(cfg, es[i].0)
      {
        if r in bars {
          if es[0].1 != [] {
            var j :| 0 <= j < |bars| && bars[j] == r;
          } else {
            assert r == Placeholder(cfg, es[0].0);
          }
        } else {
          assert r in rest;
          if r.margin != Margin(0, 0, cfg.margin, cfg.margin) {
            var i :| 0 <= i < |es[1..]| && es[1..][i].1 == [] && r == Placeholder(cfg, es[1..][i].0);
            assert es[i + 1] == es[1..][i];
          }
        }
      }
      forall i | 0 <= i < |es| && es[i].1 == []
        ensures Placeholder(cfg, es[i].0) in Expected(cfg, es)
      {
        if i == 0 {
          assert bars[0] == Placeholder(cfg, es[0].0);
        } else {
          assert es[1..][i - 1] == es[i];
        }
      }
    }
  }
}
